=== FILE: README.md ===
# nag — a Dafny model of the reminder's time arithmetic

`nag <when> <target> <message…> [--estimate]` waits, then speaks a message.
With `in` the target is a relative duration: `m`, `m:s` or `h:m:s`. With
`at` it is a wall-clock time: `h`, `h:m`, optionally followed by `am`/`pm`.
Before waiting, the program prints the time at which it will speak. After
waiting, it speaks only if a staleness test passes.

This project models `src/main.rs`:

- `duration_after`: module `After`.
- `duration_at`: module `At`.
- `format_target_time`: module `Display`.
- The run decision in `main`: module `Nag`.

The string primitives it relies on are modelled in:

- `Text`: Rust's `trim`, ASCII lower-casing, `ends_with`, `split` on a character.
- `Decimal`: `parse::<u32>` / `parse::<u64>`.

The clock is an input, not an effect. `now` is a `TimeOfDay`, the whole
seconds since local midnight. The post-wait reads are seconds counted from
that same midnight. Every `Local::now()` before the wait is taken to be the
same instant. Speaking is an outcome (`Nag.Outcome`), not an action.

Integer widths are modelled explicitly:

- The `u32` and `u64` parsers reject values at or above 2^32 / 2^64.
- `hour += 12` wraps modulo 2^32, as in a release build.
- The `u64` duration arithmetic wraps modulo 2^64.

Where the code as written misbehaves, the model keeps the written behaviour.
Next to it sits the evidently intended one, and lemmas relate the two (see
"## Findings"). `Nag.Run` is the program as written. `Nag.RunIntended` has
both corrections.

## Model

| member | source | states |
|---|---|---|
| Text.TrimExact | src/main.rs:84-88 | `trim` removes exactly the surrounding whitespace: `Trim(a + r + b) == r` for whitespace `a`, `b` and a trimmed `r` |
| Text.TrimKeepsMiddle | src/main.rs:42 | `trim` keeps a contiguous slice of its input and drops only whitespace on either side |
| Text.Trim | src/main.rs:42 | `str::trim`: the result has no whitespace at either end; Text.TrimKeepsMiddle adds that it is a slice of the input with only whitespace dropped |
| Text.Lower | src/main.rs:69-71 | `to_lowercase`: same length, each character lower-cased on its own |
| Text.LowerEndsWith | src/main.rs:69-71 | `to_lowercase().ends_with(xy)` holds exactly when the last two characters lower-case to `x`, `y` |
| Text.Split | src/main.rs:46 | `split(':')` gives one more piece than there are colons; no piece contains a colon; gluing the pieces back gives the input |
| Text.SplitJoin | src/main.rs:46 | splitting colon-free pieces joined by colons gives the pieces back |
| Decimal.ParseUnsigned | src/main.rs:49 | `parse` succeeds only on an optional `+` followed by one or more ASCII digits whose value is below the type's limit, and returns that value |
| Decimal.ParseToDecimal | src/main.rs:49 | round trip: the decimal text of `n` parses back to `n` exactly when `n` is below the limit |
| Decimal.ParsePlus | src/main.rs:49 | a leading `+` is accepted |
| Decimal.ParseRejectsForeign | src/main.rs:49 | any character other than a digit or a leading `+` (a space, a `-`) makes the parse fail |
| Decimal.ParseRejectsEmpty | src/main.rs:49 | the empty string, a lone `+` and a lone `-` are rejected |
| After.DurationAfter | src/main.rs:45-66 | the result fits in 64 bits; three or more colons give "Invalid duration format" |
| After.FromFields | src/main.rs:47-64 | more than three fields give "Invalid duration format"; any result fits in 64 bits |
| After.DurationAfterMeaning | src/main.rs:45-66 | succeeds exactly when there are one to three fields and each parses as `u64`; the value is then minutes×60, minutes×60+seconds, or the h:m:s sum, modulo 2^64 |
| After.RenderRoundTrip | src/main.rs:45-66 | writing one to three numbers as `m`, `m:s` or `h:m:s` and parsing gives their weighted sum modulo 2^64; no field is range-checked |
| After.ShapesSpelledOut | src/main.rs:48-62 | the three field counts mean 60m, 60m+s and 3600h+60m+s seconds |
| After.ExampleMinutes | src/main.rs:48-50 | `"45"` is 2700 seconds |
| After.ExampleLeadingPlus | src/main.rs:49 | `"+5"` is 300 seconds |
| After.ExampleTooManyFields | src/main.rs:63 | `"1:2:3:4"` is "Invalid duration format" |
| After.ExampleEmptyFields | src/main.rs:49-54 | `""` is "Invalid minutes" and `"1:"` is "Invalid seconds" |
| After.ExampleNotTrimmed | src/main.rs:49 | `" 5"` is "Invalid minutes": relative fields are not trimmed |
| At.StripMeridiem | src/main.rs:69-75 | the marker is `am` (or `pm`) exactly when the last two characters are `a`/`A` (or `p`/`P`) then `m`/`M`; those two characters are then cut off, otherwise nothing is |
| At.Fields | src/main.rs:77-82 | succeeds exactly when the body has at most one colon; with none, the minute text is `"00"`; with one, the two fields are the text either side of it |
| At.Number | src/main.rs:84-88 | a `u32` field parse: any value is below 2^32; failure carries the field's own message (what text is accepted is At.NumberPadded) |
| At.NumberPadded | src/main.rs:84-88 | a field is trimmed, then parsed as `u32`: whitespace on either side of a trimmed text `p` is ignored, and the field reads as `p`'s value when `p` is an optional `+` and digits below 2^32, and otherwise fails with the field's message (so `x` is an error) |
| At.Numbers | src/main.rs:84-88 | the hour is parsed before the minute: a bad hour field is "Invalid hour" whatever the minute field holds, a bad minute after a good hour is "Invalid minute"; on success the reading holds the two parsed values and the marker |
| At.Reading | src/main.rs:69-88 | a successful reading has `u32` hour and minute and the marker that was stripped |
| At.ReadingRejectsColons | src/main.rs:80-81 | two or more colons are "Invalid time format" whatever the fields hold |
| At.ReadingDefaultsMinute | src/main.rs:78-79 | a body without a colon reads minute 0 |
| At.ReadRender | src/main.rs:69-88 | round trip: `h`, `h:m`, with or without a marker, reads back as that hour, minute (0 if omitted) and marker |
| At.Normalise | src/main.rs:91-98 | `12am` becomes 0; any other reading either keeps its hour or moves it 12 on (wrapping as `u32`), and it moves exactly when it is a `pm` hour other than 12 or earlier than now |
| At.Resolve | src/main.rs:91-105 | accepted exactly when the normalised hour is at most 23 and the minute at most 59, and then the clock time is that normalised hour with the minute as read; every rejection is "Invalid time format" |
| At.ParseClock | src/main.rs:69-105 | a resolved time is a valid clock time; a reading error propagates unchanged |
| At.ParseRender | src/main.rs:69-105 | a canonical target resolves as its reading does |
| At.PmIsAfternoon | src/main.rs:93-97 | `Npm` for N in 1..11 is N+12 at any time of day |
| At.TwelveAmIsMidnight | src/main.rs:91-92 | `12am` is hour 0 at any time of day |
| At.TwelvePm | src/main.rs:93-98 | `12pm` is noon until 12:mm has passed; then it becomes hour 24 and is rejected |
| At.UnmarkedTwentyFourHour | src/main.rs:93-98 | an unmarked valid time is kept unless earlier than now; then it moves 12 on, which is rejected from hour 12 on |
| At.AmFollowsHeuristic | src/main.rs:93-98 | an explicit `Nam` (N in 1..11) earlier than now still moves to N+12 |
| At.HourOutOfRange | src/main.rs:102-105 | an hour from 24 up to 2^32−13 is rejected whatever the marker and time of day; above that a `pm` hour wraps when 12 is added (see At.HourWrapsAround) |
| At.HourOutOfRangeUnlessPm | src/main.rs:91-105 | an `am` or unmarked hour from 24 up to 2^32−1 is never moved 12 on, since it cannot be earlier than now, and is rejected at any time of day |
| At.MinuteOutOfRange | src/main.rs:102-105 | a minute from 60 up is rejected |
| At.HourWrapsAround | src/main.rs:97 | `(2^32-6)pm` wraps to hour 6 and is accepted |
| At.UntilAsWritten | src/main.rs:107-113 | a time later today is reached exactly (`now + d` is the target, `d` < 24h); otherwise `d` lies in [24h, 48h) |
| At.WaitAsWritten | src/main.rs:107-117 | for a resolved clock time the conversion always succeeds; the wait is positive and under 48 h; it is under 24 h exactly when the time is later today, and then it ends on that time |
| At.ToStd | src/main.rs:115-117 | the conversion fails exactly on a negative duration and otherwise keeps the value |
| At.DurationAt | src/main.rs:68-118 | succeeds exactly when the clock time resolves and propagates its error; `0 < d < 48h`; `d < 24h` exactly when the time is later today, and then `now + d` is that time; the conversion error can never occur |
| At.UntilNext | src/main.rs:107-113 | intended rollover: `0 < d ≤ 24h` and `now + d` falls on the requested clock time |
| At.DurationAtIntended | src/main.rs:107-117 | with the intended rollover, success and errors are those of `duration_at`, the wait is at most 24h, and it ends on the requested clock time |
| At.RolloverDifference | src/main.rs:107-113 | the written rollover waits `2 × (now − target)` longer than the next occurrence; the two agree exactly when the target is not earlier than now |
| At.RolloverOvershoots | src/main.rs:111 | the written rollover ends on the requested clock time only when the target is now itself or exactly 12 hours earlier |
| At.MarkerWithoutHour | src/main.rs:69-84 | a marker in any case with only whitespace before it (`pm`, ` AM`) is "Invalid hour" |
| At.PaddedMarkerAnyCase | src/main.rs:69-88 | an hour, then whitespace, then a marker in any case (`3 PM`) reads as that hour, minute 0 and the marker: the marker ignores case and whitespace between the hour and the marker is dropped |
| At.StripSpelled | src/main.rs:69-75 | a marker spelled in any case is recognised and exactly its two characters are cut off |
| At.ExamplesResolve | src/main.rs:91-105 | at 14:00 an unmarked `9` and an explicit `9am` are both 21:00 while `13` and `12pm` are rejected; before noon `12pm` is noon; at 01:30 `1:00` is 13:00 |
| At.ExamplesWait | src/main.rs:107-113 | 15:00 at 14:00 waits 1h; 13:00 at 15:00 waits 26h as written against 22h intended |
| Display.Hour12 | src/main.rs:37 | the 12-hour dial hour is in 1..12 and agrees with the hour modulo 12 |
| Display.Padded | src/main.rs:37-40 | chrono's `%l:%M%P` text is the 12-hour text `Clock12` behind one space of padding exactly when the dial hour has one digit |
| Display.PaddedTrim | src/main.rs:37-42 | trimming chrono's `%l:%M%P` text removes only the padding of a one-digit hour |
| Display.FormatTargetTime | src/main.rs:33-43 | `format_target_time`: the line has no surrounding whitespace; its exact text is Display.FormatShape |
| Display.FormatShape | src/main.rs:33-43 | the printed line is the unpadded 12-hour time of `now + d` with ` (tomorrow)` exactly when `now + d` is past midnight |
| Display.FormatRoundTrip | src/main.rs:33-43 | the printed line reads back as the 24-hour clock time of `now + d` and whether it is tomorrow |
| Display.IntendedShowsClock | src/main.rs:33-43 | with the intended rollover the line shows the requested time, marked tomorrow exactly when it is not later today |
| Display.AsWrittenShowsClock | src/main.rs:33-43 | as written, the line shows the requested time when it is later today; otherwise it always shows a time tomorrow |
| Display.IntendedShowsRequestedTime | src/main.rs:33-43 | the same, for any `at` target that parses |
| Nag.SelectMode | src/main.rs:152-162 | `in` and `at` are recognised after trimming and lower-casing; every other word is unsupported |
| Nag.ModeIgnoresPadding | src/main.rs:152 | surrounding whitespace does not change the mode selected |
| Nag.Duration | src/main.rs:155-162 | `in` gives a wait below 2^64 seconds; `at` succeeds exactly when the clock time parses, and then waits more than 0 and less than 48 hours |
| Nag.SpeaksAsWritten | src/main.rs:178-183 | the written test: with the two reads after the wait equal it passes exactly when the duration is under 30 s, and with them in order it never passes for 30 s or more |
| Nag.SpeaksIntended | src/main.rs:180-182 | the intended test: a wake-up less than 30 s from `now + d`, early or late, passes; one 30 s or more early or late does not |
| Nag.Proceed | src/main.rs:164-185 | a parse error aborts; an estimate stops after printing; otherwise the message is spoken exactly when the staleness test passes, and only the given message is spoken |
| Nag.Run | src/main.rs:152-185 | an unsupported `when` ends the run with nothing printed and nothing spoken |
| Nag.RunIntended | src/main.rs:152-185 | the same for the corrected run |
| Nag.ProceedPrints | src/main.rs:165-167 | once a wait is parsed exactly one line is printed, the target time; before that nothing is |
| Nag.ParseErrorAborts | src/main.rs:155-158 | a target that fails to parse aborts with its error; nothing is printed or spoken |
| Nag.EstimateOnly | src/main.rs:164-171 | `--estimate` prints the target time and stops |
| Nag.GuardsOnPunctualWake | src/main.rs:178-183 | on a punctual wake the intended test passes; the written test passes only for waits under 30 s |
| Nag.LongWaitNeverSpoken | src/main.rs:176-185 | as written, a wait of 30 s or more is never spoken |
| Nag.IntendedGuard | src/main.rs:176-185 | corrected: a wake-up on time or up to 29 s late speaks; one 30 s or more late never does |
| Nag.ScenarioEstimate | src/main.rs:155-171 | `nag in 45 … --estimate` prints the time 2700 s on and stops |
| Nag.ScenarioHourOutOfRange | src/main.rs:84-105 | `nag at h` with 24 ≤ h < 2^32 is aborted with "Invalid time format"; from 2^32 up the hour field itself fails with "Invalid hour" instead (At.NumberPadded) |

## Left out

- Speech, `clap` and `thread::sleep` are not modelled. The `speak_message` / `get_speak_command` functions are left out as well. They are I/O; the model's outcome says what would be spoken.
- Time zones, daylight-saving changes and the date are not modelled. `Local::now()` is a time of day in whole seconds. Sub-second precision is dropped, and the several reads before the wait are one instant.
- Display.FormatTargetTime: "tomorrow" is modelled as `now + d` reaching the next midnight. The source compares `day0()`, the day of the month, which also says "not tomorrow" whenever `now + d` lands on the same day of the month in a later month (a wait of at least 28 days). Such a wait is only reachable through `nag in` with a very large duration. chrono's panic when `now + duration` overflows (at `src/main.rs:35` and `src/main.rs:179`, for huge relative durations) is not modelled either.
- After.DurationAfter: debug builds panic on `u64` overflow; the model follows release builds and wraps.
- At.Normalise: debug builds panic on `hour += 12` overflow; the model wraps as a release build does.
- At.Resolve: chrono's `NaiveDateTime::parse_from_str` is reduced to its effect here: it rejects an hour above 23 or a minute above 59. The `{:02}` formatting and the date prefix always satisfy the format otherwise.
- Text.Lower: `to_lowercase` is modelled on ASCII letters only. Other letters do not affect whether a string ends in `am`/`pm`, except for characters whose lower case changes length, which are not modelled.
- Joining the message words with spaces (`src/main.rs:173-174`) is not modelled; the message arrives already joined.
- Concrete examples use small literal inputs. Larger inputs are covered by the general lemmas (`After.RenderRoundTrip`, `At.ReadRender`) rather than by worked cases.

## Findings

| source | as written | input that shows it | evidently intended | confidence | as-written member | corrected member |
|---|---|---|---|---|---|---|
| src/main.rs:111 | a time not later today waits `(now − target) + 24h` | `nag at 1pm` at 15:00 waits 26 h and announces 5:00pm tomorrow | wait `24h − (now − target)`, until the next 1pm (22 h) | high, not executed | At.RolloverOvershoots | At.DurationAtIntended |
| src/main.rs:178-183 | `target_time` is taken from a fresh `Local::now()` after the wait, so `target_time − now` is the duration itself | `nag in 1 hi` waits 60 s and never speaks; any wait of 30 s or more is silent | speak when the wake-up is within 30 s of the instant the wait was aimed at | high, not executed | Nag.LongWaitNeverSpoken | Nag.IntendedGuard |

=== FILE: after.dfy ===
/**
 * `duration_after`: the relative duration of `nag in <target>`, written as
 * `m`, `m:s` or `h:m:s` with unsigned fields and no range checks.
 */
module After {
  import opened Wrappers
  import opened Text
  import opened Decimal
  import opened Clock

  /** Fields read as base-60 digits, most significant first. */
  function Sexagesimal(vs: seq<nat>): nat {
    if |vs| == 0 then 0 else Sexagesimal(vs[..|vs| - 1]) * 60 + vs[|vs| - 1]
  }

  /**
   * What a list of one to three fields means in seconds: a single field counts
   * minutes; otherwise the last field is seconds and each earlier one is worth
   * sixty of the next.
   */
  function SecondsOf(vs: seq<nat>): nat
    requires 1 <= |vs| <= 3
  {
    if |vs| == 1 then Sexagesimal(vs + [0]) else Sexagesimal(vs)
  }

  predicate AllParse(parts: seq<string>) {
    forall i :: 0 <= i < |parts| ==> ParseUnsigned(parts[i], U64Limit).Some?
  }

  function ValuesOf(parts: seq<string>): seq<nat>
    requires AllParse(parts)
  {
    seq(|parts|, i requires 0 <= i < |parts| => ParseUnsigned(parts[i], U64Limit).value)
  }

  /** `parse::<u64>` with its error mapped to the field's message. */
  function Field(p: string, e: ParseError): Result<nat, ParseError> {
    match ParseUnsigned(p, U64Limit)
    case Some(v) => Ok(v)
    case None => Err(e)
  }

  /** Release-build `u64` arithmetic: results wrap modulo 2^64. */
  function WrapU64(x: nat): nat {
    x % U64Limit
  }

  /**
   * `duration_after`. The source wraps after every `*` and `+`; wrapping once at
   * the end gives the same value, since each step is taken modulo 2^64.
   */
  function DurationAfter(s: string): (r: Result<nat, ParseError>)
    ensures r.Ok? ==> r.value < U64Limit
    ensures Count(s, ':') >= 3 ==> r == Err(InvalidDurationFormat)
  {
    FromFields(Split(s, ':'))
  }

  /** The `match parts.len()` of `duration_after`, on the pieces between the colons. */
  function FromFields(parts: seq<string>): (r: Result<nat, ParseError>)
    ensures r.Ok? ==> r.value < U64Limit
    ensures |parts| > 3 ==> r == Err(InvalidDurationFormat)
  {
    if |parts| == 1 then
      var minutes :- Field(parts[0], InvalidMinutes);
      Ok(WrapU64(minutes * 60))
    else if |parts| == 2 then
      var minutes :- Field(parts[0], InvalidMinutes);
      var seconds :- Field(parts[1], InvalidSeconds);
      Ok(WrapU64(minutes * 60 + seconds))
    else if |parts| == 3 then
      var hours :- Field(parts[0], InvalidHours);
      var minutes :- Field(parts[1], InvalidMinutes);
      var seconds :- Field(parts[2], InvalidSeconds);
      Ok(WrapU64(hours * 3600 + minutes * 60 + seconds))
    else
      Err(InvalidDurationFormat)
  }

  /**
   * `duration_after` succeeds exactly when there are one to three fields and
   * each is an unsigned 64-bit number, and then yields the fields' meaning in
   * seconds, wrapped to 64 bits.
   */
  lemma {:induction false} DurationAfterMeaning(s: string)
    ensures DurationAfter(s).Ok? <==> 1 <= |Split(s, ':')| <= 3 && AllParse(Split(s, ':'))
    ensures DurationAfter(s).Ok? ==> DurationAfter(s).value == SecondsOf(ValuesOf(Split(s, ':'))) % U64Limit
  {
    FieldsMeaning(Split(s, ':'));
  }

  lemma {:induction false} FieldsMeaning(parts: seq<string>)
    ensures FromFields(parts).Ok? <==> 1 <= |parts| <= 3 && AllParse(parts)
    ensures FromFields(parts).Ok? ==> FromFields(parts).value == SecondsOf(ValuesOf(parts)) % U64Limit
  {
    if 1 <= |parts| <= 3 && AllParse(parts) {
      FieldsAccepted(parts);
    } else if 1 <= |parts| <= 3 {
      FieldsRejected(parts);
    }
  }

  lemma {:induction false} FieldsAccepted(parts: seq<string>)
    requires 1 <= |parts| <= 3 && AllParse(parts)
    ensures FromFields(parts) == Ok(SecondsOf(ValuesOf(parts)) % U64Limit)
  {
    var vs := ValuesOf(parts);
    ShapesSpelledOut(vs);
    if |parts| == 1 {
      assert Field(parts[0], InvalidMinutes) == Ok(vs[0]);
    } else if |parts| == 2 {
      assert Field(parts[0], InvalidMinutes) == Ok(vs[0]);
      assert Field(parts[1], InvalidSeconds) == Ok(vs[1]);
    } else {
      assert Field(parts[0], InvalidHours) == Ok(vs[0]);
      assert Field(parts[1], InvalidMinutes) == Ok(vs[1]);
      assert Field(parts[2], InvalidSeconds) == Ok(vs[2]);
    }
  }

  lemma {:induction false} FieldsRejected(parts: seq<string>)
    requires 1 <= |parts| <= 3 && !AllParse(parts)
    ensures FromFields(parts).Err?
  {
    var i :| 0 <= i < |parts| && ParseUnsigned(parts[i], U64Limit).None?;
    if |parts| == 1 {
      assert Field(parts[0], InvalidMinutes).Err?;
    } else if |parts| == 2 {
      assert Field(parts[0], InvalidMinutes).Err? || Field(parts[1], InvalidSeconds).Err?;
    } else {
      assert Field(parts[0], InvalidHours).Err? || Field(parts[1], InvalidMinutes).Err?
          || Field(parts[2], InvalidSeconds).Err?;
    }
  }

  /** The canonical decimal rendering of each field. */
  function Decimals(vs: seq<nat>): (ps: seq<string>)
    ensures |ps| == |vs|
    ensures forall i :: 0 <= i < |vs| ==> ps[i] == ToDecimal(vs[i])
  {
    seq(|vs|, i requires 0 <= i < |vs| => ToDecimal(vs[i]))
  }

  /**
   * Round trip: writing one to three numbers as `m`, `m:s` or `h:m:s` and
   * parsing the text gives their weighted sum, wrapped to 64 bits.
   */
  lemma {:induction false} RenderRoundTrip(vs: seq<nat>)
    requires 1 <= |vs| <= 3
    requires forall i :: 0 <= i < |vs| ==> vs[i] < U64Limit
    ensures DurationAfter(Join(Decimals(vs), ':')) == Ok(SecondsOf(vs) % U64Limit)
  {
    var ps := Decimals(vs);
    forall i | 0 <= i < |ps| ensures ':' !in ps[i] && ParseUnsigned(ps[i], U64Limit) == Some(vs[i]) {
      ParseToDecimal(vs[i], U64Limit);
    }
    SplitJoin(ps, ':');
    assert ValuesOf(ps) == vs;
    DurationAfterMeaning(Join(ps, ':'));
  }

  /** The three shapes spelled out: `m` is `60m`, `m:s` is `60m+s`, `h:m:s` is `3600h+60m+s` seconds. */
  lemma {:induction false} ShapesSpelledOut(vs: seq<nat>)
    requires 1 <= |vs| <= 3
    ensures |vs| == 1 ==> SecondsOf(vs) == vs[0] * 60
    ensures |vs| == 2 ==> SecondsOf(vs) == vs[0] * 60 + vs[1]
    ensures |vs| == 3 ==> SecondsOf(vs) == vs[0] * 3600 + vs[1] * 60 + vs[2]
  {
    if |vs| == 1 {
      SexagesimalPair(vs[0], 0);
      assert vs + [0] == [vs[0], 0];
    } else if |vs| == 2 {
      SexagesimalPair(vs[0], vs[1]);
      assert vs == [vs[0], vs[1]];
    } else {
      SexagesimalPair(vs[0], vs[1]);
      assert vs[..2] == [vs[0], vs[1]];
    }
  }

  lemma {:induction false} SexagesimalPair(a: nat, b: nat)
    ensures Sexagesimal([a, b]) == a * 60 + b
  {
    assert [a, b][..1] == [a];
    assert [a][..0] == [];
    assert Sexagesimal([a]) == Sexagesimal([]) * 60 + a;
    assert Sexagesimal([a, b]) == Sexagesimal([a]) * 60 + b;
  }

  /** Worked cases, including the absence of range checks and of trimming. */
  lemma {:induction false} ExampleMinutes()
    ensures DurationAfter("45") == Ok(2700)
  {
    SplitNoSep("45", ':');
    assert "45"[..1] == "4";
    assert Digits("45") == "45";
    assert Value("45") == 45;
    assert ParseUnsigned("45", U64Limit) == Some(45);
    assert Field("45", InvalidMinutes) == Ok(45);
    assert FromFields(["45"]) == Ok(2700);
  }

  lemma {:induction false} ExampleLeadingPlus()
    ensures DurationAfter("+5") == Ok(300)
  {
    SplitNoSep("+5", ':');
    assert Digits("+5") == "5";
    assert FromFields(["+5"]) == Ok(300);
  }

  lemma {:induction false} ExampleTooManyFields()
    ensures DurationAfter("1:2:3:4") == Err(InvalidDurationFormat)
  {
    assert Count("1:2:3:4", ':') == 3;
  }

  lemma {:induction false} ExampleEmptyFields()
    ensures DurationAfter("") == Err(InvalidMinutes)
    ensures DurationAfter("1:") == Err(InvalidSeconds)
  {
    SplitPrefix("1", "", ':');
    assert "1" + [':'] + "" == "1:";
    ParseRejectsEmpty(U64Limit);
  }

  lemma {:induction false} ExampleNotTrimmed()
    ensures DurationAfter(" 5") == Err(InvalidMinutes)
  {
    SplitNoSep(" 5", ':');
    ParseRejectsForeign(" 5", U64Limit, 0);
  }
}

=== FILE: at.dfy ===
/**
 * `duration_at`: the absolute clock time of `nag at <target>` ("3pm", "14:05",
 * "9"), resolved against the current time of day into a wait in seconds.
 *
 * The resolution happens in three steps, each its own function:
 * `Reading` splits off the am/pm marker and reads hour and minute,
 * `Normalise` turns the hour into a 24-hour value, and `DurationAt`
 * measures the wait to that clock time.
 */
module At {
  import opened Wrappers
  import opened Text
  import opened Decimal
  import opened Clock

  /** The case-insensitive `am` / `pm` suffix, if any. */
  datatype Meridiem = Am | Pm | Unmarked

  /** What the user wrote: hour and minute as read, and the marker. */
  datatype RawTime = RawTime(hour: nat, minute: nat, meridiem: Meridiem)

  /** A normalised wall-clock reading without a date. */
  datatype ClockTime = ClockTime(hour: nat, minute: nat) {
    predicate Valid() {
      hour < 24 && minute < 60
    }

    /** Seconds since midnight of `hour:minute:00`. */
    function Seconds(): nat {
      hour * SecondsPerHour + minute * SecondsPerMinute
    }
  }

  /** The text of a marker, as `Render` writes it. */
  function SuffixOf(m: Meridiem): string {
    match m
    case Am => "am"
    case Pm => "pm"
    case Unmarked => ""
  }

  /** The last two characters of `s` lower-case to `x` then `m`. */
  predicate MarkedWith(s: string, x: char) {
    |s| >= 2 && LowerChar(s[|s| - 2]) == x && LowerChar(s[|s| - 1]) == 'm'
  }

  /**
   * `src/main.rs` lines 69-75: `s.to_lowercase().ends_with("am")`, then `"pm"`, each
   * cutting the last two characters off the body.
   */
  function StripMeridiem(s: string): (r: (string, Meridiem))
    ensures r.1 == Am <==> MarkedWith(s, 'a')
    ensures r.1 == Pm <==> MarkedWith(s, 'p')
    ensures r.1 == Unmarked ==> r.0 == s
    ensures r.1 != Unmarked ==> |s| >= 2 && r.0 == s[..|s| - 2]
  {
    LowerEndsWith(s, 'a', 'm');
    LowerEndsWith(s, 'p', 'm');
    if EndsWith(Lower(s), "am") then (s[..|s| - 2], Am)
    else if EndsWith(Lower(s), "pm") then (s[..|s| - 2], Pm)
    else (s, Unmarked)
  }

  /** The minute text a target without a colon gets. */
  const DefaultMinute: string := "00"

  /**
   * `src/main.rs` lines 77-82: the body split on `:`; a single field gets the minute
   * `"00"`, and more than two fields are an error.
   */
  function Fields(body: string): (r: Result<(string, string), ParseError>)
    ensures r.Ok? <==> Count(body, ':') <= 1
    ensures Count(body, ':') == 0 ==> r == Ok((body, DefaultMinute))
    ensures Count(body, ':') == 1 ==> body == r.value.0 + [':'] + r.value.1
    ensures r.Ok? ==> ':' !in r.value.0 && ':' !in r.value.1
  {
    var parts := Split(body, ':');
    if |parts| == 1 then
      Ok((parts[0], DefaultMinute))
    else if |parts| != 2 then
      Err(InvalidTimeFormat)
    else
      assert parts[1..] == [parts[1]];
      assert Join(parts[1..], ':') == parts[1];
      Ok((parts[0], parts[1]))
  }

  /** `trim().parse::<u32>()` with its error mapped to the field's message. */
  function Number(p: string, e: ParseError): (r: Result<nat, ParseError>)
    ensures r.Ok? ==> r.value < U32Limit
    ensures r.Err? ==> r.error == e
  {
    match ParseUnsigned(Trim(p), U32Limit)
    case Some(v) => Ok(v)
    case None => Err(e)
  }

  /** `src/main.rs` lines 69-88: the marker, the fields, then the hour and the minute as written. */
  function Reading(s: string): (r: Result<RawTime, ParseError>)
    ensures r.Ok? ==> r.value.hour < U32Limit && r.value.minute < U32Limit
    ensures r.Ok? ==> r.value.meridiem == StripMeridiem(s).1
  {
    var (body, meridiem) := StripMeridiem(s);
    var fields :- Fields(body);
    Numbers(fields, meridiem)
  }

  /** `src/main.rs` lines 84-88: the hour field, then the minute field, as `u32`. */
  function Numbers(fields: (string, string), meridiem: Meridiem): (r: Result<RawTime, ParseError>)
    ensures r.Ok? ==> r.value.hour < U32Limit && r.value.minute < U32Limit && r.value.meridiem == meridiem
    ensures r.Err? ==> r.error in {InvalidHour, InvalidMinute}
    ensures r.Ok? <==> Number(fields.0, InvalidHour).Ok? && Number(fields.1, InvalidMinute).Ok?
    ensures Number(fields.0, InvalidHour).Err? ==> r == Err(InvalidHour)
    ensures Number(fields.0, InvalidHour).Ok? && Number(fields.1, InvalidMinute).Err? ==> r == Err(InvalidMinute)
    ensures r.Ok? ==> r.value == RawTime(Number(fields.0, InvalidHour).value, Number(fields.1, InvalidMinute).value, meridiem)
  {
    var hour :- Number(fields.0, InvalidHour);
    var minute :- Number(fields.1, InvalidMinute);
    Ok(RawTime(hour, minute, meridiem))
  }

  /** More than one colon in the body is rejected before any number is read. */
  lemma {:induction false} ReadingRejectsColons(s: string)
    requires Count(StripMeridiem(s).0, ':') >= 2
    ensures Reading(s) == Err(InvalidTimeFormat)
  {
    var body := StripMeridiem(s).0;
    assert Fields(body) == Err(InvalidTimeFormat);
    ReadingOfFields(s, body, StripMeridiem(s).1);
  }

  /** A body without a colon reads minute 0. */
  lemma {:induction false} ReadingDefaultsMinute(s: string)
    requires ':' !in StripMeridiem(s).0
    ensures Reading(s).Ok? ==> Reading(s).value.minute == 0
  {
    var body := StripMeridiem(s).0;
    NoSepCount(body, ':');
    assert Fields(body) == Ok((body, DefaultMinute));
    ReadingOfFields(s, body, StripMeridiem(s).1);
    NumbersDefault(body, StripMeridiem(s).1);
  }

  lemma {:induction false} NumbersDefault(hour: string, m: Meridiem)
    ensures Numbers((hour, DefaultMinute), m).Ok? ==> Numbers((hour, DefaultMinute), m).value.minute == 0
  {
    NumberOfDefaultMinute();
  }

  /** `Reading` unfolded past the marker. */
  lemma {:induction false} ReadingOfFields(s: string, body: string, m: Meridiem)
    requires StripMeridiem(s) == (body, m)
    ensures Fields(body).Err? ==> Reading(s) == Err(Fields(body).error)
    ensures Fields(body).Ok? ==> Reading(s) == Numbers(Fields(body).value, m)
  {
  }

  lemma {:induction false} NoSepCount(s: string, c: char)
    requires c !in s
    ensures Count(s, c) == 0
  {
    if |s| > 0 {
      assert c !in s[1..] by {
        forall i | 0 <= i < |s[1..]| ensures s[1..][i] != c {
          assert s[1..][i] == s[i + 1];
        }
      }
      NoSepCount(s[1..], c);
    }
  }

  /** The reading `hour:minute` falls before the current hour and minute. */
  predicate Earlier(hour: nat, minute: nat, now: TimeOfDay) {
    hour < HourOf(now) || (hour == HourOf(now) && minute < MinuteOf(now))
  }

  /**
   * `src/main.rs` lines 91-98: `12am` is midnight; otherwise the hour moves twelve hours on
   * (once at most, as a wrapping `u32` addition) for a `pm` hour other than 12
   * and, whatever the marker, for a reading earlier than now.
   */
  function Normalise(raw: RawTime, now: TimeOfDay): (h: nat)
    requires raw.hour < U32Limit
    ensures raw.meridiem == Am && raw.hour == 12 ==> h == 0
    ensures raw.meridiem == Pm && raw.hour != 12 ==> h == (raw.hour + 12) % U32Limit
    ensures raw.meridiem != Pm && !(raw.meridiem == Am && raw.hour == 12) ==>
              (h == raw.hour <==> !Earlier(raw.hour, raw.minute, now))
    ensures !(raw.meridiem == Am && raw.hour == 12) ==>
              (h == raw.hour || h == (raw.hour + 12) % U32Limit)
              && (h == (raw.hour + 12) % U32Limit <==>
                  (raw.meridiem == Pm && raw.hour != 12) || Earlier(raw.hour, raw.minute, now))
  {
    if raw.meridiem == Am && raw.hour == 12 then
      0
    else if (raw.meridiem == Pm && raw.hour != 12) || Earlier(raw.hour, raw.minute, now) then
      (raw.hour + 12) % U32Limit
    else
      raw.hour
  }

  /**
   * `src/main.rs` lines 91-105 on a reading: normalise the hour; the date-time parse of
   * `"{date} {hour:02}:{minute:02}:00"` then rejects an hour above 23 or a
   * minute above 59.
   */
  function Resolve(raw: RawTime, now: TimeOfDay): (r: Result<ClockTime, ParseError>)
    requires raw.hour < U32Limit
    ensures r.Ok? <==> Normalise(raw, now) < 24 && raw.minute < 60
    ensures r.Ok? ==> r.value.Valid() && r.value == ClockTime(Normalise(raw, now), raw.minute)
    ensures r.Err? ==> r.error == InvalidTimeFormat
  {
    var hour := Normalise(raw, now);
    if hour > 23 || raw.minute > 59 then Err(InvalidTimeFormat)
    else Ok(ClockTime(hour, raw.minute))
  }

  /** `src/main.rs` lines 69-105: the clock time a target names, read against the time of day `now`. */
  function ParseClock(s: string, now: TimeOfDay): (r: Result<ClockTime, ParseError>)
    ensures r.Ok? ==> r.value.Valid()
    ensures Reading(s).Err? ==> r == Err(Reading(s).error)
  {
    var raw :- Reading(s);
    Resolve(raw, now)
  }

  /**
   * `src/main.rs` lines 107-113 as written: the wait to a later time today, or else
   * `(now - candidate) + 24h`. Signed, like chrono's `Duration`.
   */
  function UntilAsWritten(c: ClockTime, now: TimeOfDay): (d: int)
    requires c.Valid()
    ensures c.Seconds() > now ==> now + d == c.Seconds() && d < SecondsPerDay
    ensures c.Seconds() <= now ==> SecondsPerDay <= d < 2 * SecondsPerDay
  {
    var t := c.Seconds();
    if t > now then t - now else (now - t) + SecondsPerDay
  }

  /** `src/main.rs` lines 115-117: `to_std` fails on a negative duration. */
  function ToStd(d: int): (r: Result<nat, ParseError>)
    ensures r.Ok? <==> d >= 0
    ensures r.Ok? ==> r.value == d
  {
    if d < 0 then Err(ConversionFailed) else Ok(d)
  }

  /**
   * `src/main.rs` lines 107-117 once the clock time is known: the written rollover, then
   * `to_std`, whose conversion error can never happen since the wait is
   * always positive.
   */
  function WaitAsWritten(c: ClockTime, now: TimeOfDay): (r: Result<nat, ParseError>)
    requires c.Valid()
    ensures r.Ok? && 0 < r.value < 2 * SecondsPerDay
    ensures r.value < SecondsPerDay <==> c.Seconds() > now
    ensures r.value < SecondsPerDay ==> now + r.value == c.Seconds()
  {
    ToStd(UntilAsWritten(c, now))
  }

  /** `duration_at`, the clock read once as `now`. */
  function DurationAt(s: string, now: TimeOfDay): (r: Result<nat, ParseError>)
    ensures r.Ok? <==> ParseClock(s, now).Ok?
    ensures r.Err? ==> r.error == ParseClock(s, now).error
    ensures r.Ok? ==> 0 < r.value < 2 * SecondsPerDay
    ensures r.Ok? ==> (r.value < SecondsPerDay <==> ParseClock(s, now).value.Seconds() > now)
    ensures r.Ok? && r.value < SecondsPerDay ==> now + r.value == ParseClock(s, now).value.Seconds()
  {
    var c :- ParseClock(s, now);
    WaitAsWritten(c, now)
  }

  /** Waiting `d` seconds from `now` reaches the clock time `c` (on some day). */
  predicate Lands(now: TimeOfDay, d: nat, c: ClockTime) {
    (now + d) % SecondsPerDay == c.Seconds()
  }

  /**
   * The evidently intended rollover: the time until the next occurrence of
   * the clock reading, which is tomorrow when it is not later today.
   */
  function UntilNext(c: ClockTime, now: TimeOfDay): (d: nat)
    requires c.Valid()
    ensures 0 < d <= SecondsPerDay
    ensures Lands(now, d, c)
  {
    var t := c.Seconds();
    if t > now then t - now else SecondsPerDay - (now - t)
  }

  /** `duration_at` with the rollover of `UntilNext`. */
  function DurationAtIntended(s: string, now: TimeOfDay): (r: Result<nat, ParseError>)
    ensures r.Ok? <==> ParseClock(s, now).Ok?
    ensures r.Err? ==> r.error == ParseClock(s, now).error
    ensures r.Ok? ==> 0 < r.value <= SecondsPerDay
    ensures r.Ok? ==> Lands(now, r.value, ParseClock(s, now).value)
  {
    var c :- ParseClock(s, now);
    Ok(UntilNext(c, now))
  }

  /** A target written in canonical form: `h`, or `h:m`, then the marker. */
  function Render(hour: nat, minute: Option<nat>, m: Meridiem): string {
    match minute
    case None => ToDecimal(hour) + SuffixOf(m)
    case Some(mm) => ToDecimal(hour) + [':'] + ToDecimal(mm) + SuffixOf(m)
  }

  lemma {:induction false} MarkerRoundTrip(body: string, m: Meridiem)
    requires |body| > 0 && IsDigit(body[|body| - 1])
    ensures StripMeridiem(body + SuffixOf(m)) == (body, m)
  {
    var s := body + SuffixOf(m);
    if m != Unmarked {
      assert s[..|s| - 2] == body;
    } else {
      assert s == body;
    }
  }

  lemma {:induction false} DecimalTrimmed(n: nat)
    ensures Trim(ToDecimal(n)) == ToDecimal(n)
  {
    TrimIdentity(ToDecimal(n));
  }

  /** `Reading` assembled from its three steps. */
  lemma {:induction false} ReadingSteps(s: string, body: string, m: Meridiem, a: string, b: string, hour: nat, minute: nat)
    requires StripMeridiem(s) == (body, m)
    requires Fields(body) == Ok((a, b))
    requires Number(a, InvalidHour) == Ok(hour) && Number(b, InvalidMinute) == Ok(minute)
    ensures Reading(s) == Ok(RawTime(hour, minute, m))
  {
    ReadingOfFields(s, body, m);
  }

  lemma {:induction false} DecimalNoColon(n: nat)
    ensures ':' !in ToDecimal(n)
  {
  }

  lemma {:induction false} NumberOfDecimal(n: nat, e: ParseError)
    requires n < U32Limit
    ensures Number(ToDecimal(n), e) == Ok(n)
  {
    DecimalTrimmed(n);
    ParseToDecimal(n, U32Limit);
  }

  lemma {:induction false} NumberOfDefaultMinute()
    ensures Number(DefaultMinute, InvalidMinute) == Ok(0)
  {
    TrimIdentity(DefaultMinute);
    ParseDoubleZero(U32Limit);
  }

  lemma {:induction false} FieldsOfOne(a: string)
    requires ':' !in a
    ensures Fields(a) == Ok((a, DefaultMinute))
  {
    SplitNoSep(a, ':');
  }

  lemma {:induction false} FieldsOfTwo(a: string, b: string)
    requires ':' !in a && ':' !in b
    ensures Fields(a + [':'] + b) == Ok((a, b))
  {
    SplitPrefix(a, b, ':');
    SplitNoSep(b, ':');
  }

  /**
   * Round trip of `Reading`: a target written as `h[:m][am|pm]` reads back
   * as that hour, minute (0 when omitted) and marker.
   */
  lemma {:induction false} ReadRender(hour: nat, minute: Option<nat>, m: Meridiem)
    requires hour < U32Limit
    requires minute.Some? ==> minute.value < U32Limit
    ensures Reading(Render(hour, minute, m)) == Ok(RawTime(hour, if minute.Some? then minute.value else 0, m))
  {
    match minute
    case None => ReadRenderHour(hour, m);
    case Some(mm) => ReadRenderHourMinute(hour, mm, m);
  }

  lemma {:induction false} ReadRenderHour(hour: nat, m: Meridiem)
    requires hour < U32Limit
    ensures Reading(ToDecimal(hour) + SuffixOf(m)) == Ok(RawTime(hour, 0, m))
  {
    var h := ToDecimal(hour);
    DecimalNoColon(hour);
    NumberOfDecimal(hour, InvalidHour);
    MarkerRoundTrip(h, m);
    FieldsOfOne(h);
    NumberOfDefaultMinute();
    ReadingSteps(h + SuffixOf(m), h, m, h, DefaultMinute, hour, 0);
  }

  lemma {:induction false} ReadRenderHourMinute(hour: nat, minute: nat, m: Meridiem)
    requires hour < U32Limit && minute < U32Limit
    ensures Reading(ToDecimal(hour) + [':'] + ToDecimal(minute) + SuffixOf(m)) == Ok(RawTime(hour, minute, m))
  {
    var h := ToDecimal(hour);
    var t := ToDecimal(minute);
    DecimalNoColon(hour);
    DecimalNoColon(minute);
    NumberOfDecimal(hour, InvalidHour);
    NumberOfDecimal(minute, InvalidMinute);
    var body := h + [':'] + t;
    assert body[|body| - 1] == t[|t| - 1];
    MarkerRoundTrip(body, m);
    FieldsOfTwo(h, t);
    ReadingSteps(body + SuffixOf(m), body, m, h, t, hour, minute);
  }

  /** `Npm` with N from 1 to 11 always means N + 12 o'clock, whatever the time now. */
  lemma {:induction false} PmIsAfternoon(hour: nat, minute: nat, now: TimeOfDay)
    requires 1 <= hour <= 11 && minute < 60
    ensures Resolve(RawTime(hour, minute, Pm), now) == Ok(ClockTime(hour + 12, minute))
  {
  }

  /** `12am` is always midnight. */
  lemma {:induction false} TwelveAmIsMidnight(minute: nat, now: TimeOfDay)
    requires minute < 60
    ensures Resolve(RawTime(12, minute, Am), now) == Ok(ClockTime(0, minute))
  {
  }

  /**
   * `12pm` is noon until the current time passes 12:minute; after that it
   * becomes hour 24 and is rejected.
   */
  lemma {:induction false} TwelvePm(minute: nat, now: TimeOfDay)
    requires minute < 60
    ensures Resolve(RawTime(12, minute, Pm), now)
         == if Earlier(12, minute, now) then Err(InvalidTimeFormat) else Ok(ClockTime(12, minute))
  {
  }

  /**
   * An unmarked 24-hour time is taken as written unless it is earlier than
   * now; then it moves twelve hours on, which is out of range from noon on.
   */
  lemma {:induction false} UnmarkedTwentyFourHour(c: ClockTime, now: TimeOfDay)
    requires c.Valid()
    ensures Resolve(RawTime(c.hour, c.minute, Unmarked), now)
         == if !Earlier(c.hour, c.minute, now) then Ok(c)
            else if c.hour < 12 then Ok(ClockTime(c.hour + 12, c.minute))
            else Err(InvalidTimeFormat)
  {
  }

  /**
   * The past-time heuristic also applies to an explicit `am` other than
   * `12am`: `Nam` earlier than now is moved to N + 12.
   */
  lemma {:induction false} AmFollowsHeuristic(hour: nat, minute: nat, now: TimeOfDay)
    requires 1 <= hour <= 11 && minute < 60
    ensures Resolve(RawTime(hour, minute, Am), now)
         == if Earlier(hour, minute, now) then Ok(ClockTime(hour + 12, minute)) else Ok(ClockTime(hour, minute))
  {
  }

  /**
   * An hour from 24 up to 2^32 - 13 as written is rejected at any time of
   * day, whatever the marker: moving it 12 on cannot wrap.
   */
  lemma {:induction false} HourOutOfRange(raw: RawTime, now: TimeOfDay)
    requires 24 <= raw.hour < U32Limit - 12
    ensures Resolve(raw, now) == Err(InvalidTimeFormat)
  {
  }

  /**
   * Without a `pm` marker an hour from 24 up is never moved on, since it
   * cannot be earlier than the current hour, so every such `u32` hour is
   * rejected; only `pm` can wrap (see `HourWrapsAround`).
   */
  lemma {:induction false} HourOutOfRangeUnlessPm(raw: RawTime, now: TimeOfDay)
    requires 24 <= raw.hour < U32Limit && raw.meridiem != Pm
    ensures Normalise(raw, now) == raw.hour
    ensures Resolve(raw, now) == Err(InvalidTimeFormat)
  {
    assert HourOf(now) < 24;
    assert !Earlier(raw.hour, raw.minute, now);
  }

  /** A minute above 59 is rejected at any time of day. */
  lemma {:induction false} MinuteOutOfRange(raw: RawTime, now: TimeOfDay)
    requires raw.hour < U32Limit && raw.minute >= 60
    ensures Resolve(raw, now) == Err(InvalidTimeFormat)
  {
  }

  /**
   * Release-build wrap-around of `hour += 12`: an hour within 12 of the
   * `u32` maximum that is moved on wraps to a small hour and is accepted.
   */
  lemma {:induction false} HourWrapsAround(now: TimeOfDay)
    ensures Resolve(RawTime(U32Limit - 6, 0, Pm), now) == Ok(ClockTime(6, 0))
  {
  }

  /**
   * The two rollovers agree exactly when the clock time is not earlier in
   * the day than now; the written one waits `2 * (now - candidate)` longer.
   */
  lemma {:induction false} RolloverDifference(c: ClockTime, now: TimeOfDay)
    requires c.Valid()
    ensures UntilAsWritten(c, now) == UntilNext(c, now) + 2 * (if c.Seconds() <= now then now - c.Seconds() else 0)
    ensures UntilAsWritten(c, now) == UntilNext(c, now) <==> c.Seconds() >= now
  {
  }

  /**
   * The written rollover lands on the requested clock time only when the
   * candidate is now itself or exactly twelve hours earlier.
   */
  lemma {:induction false} RolloverOvershoots(c: ClockTime, now: TimeOfDay)
    requires c.Valid() && c.Seconds() <= now
    ensures (now + UntilAsWritten(c, now)) % SecondsPerDay == c.Seconds()
        <==> now == c.Seconds() || now == c.Seconds() + SecondsPerDay / 2
  {
    var t := c.Seconds();
    var k := now - t;
    assert now + UntilAsWritten(c, now) == t + 2 * k + SecondsPerDay;
    if k == 0 {
    } else if k == SecondsPerDay / 2 {
      assert t + 2 * k + SecondsPerDay == t + 2 * SecondsPerDay;
    } else if 2 * k < SecondsPerDay {
      assert (t + 2 * k + SecondsPerDay) % SecondsPerDay == (t + 2 * k) % SecondsPerDay;
    } else {
      assert (t + 2 * k + SecondsPerDay) % SecondsPerDay == (t + 2 * k - SecondsPerDay) % SecondsPerDay;
    }
  }

  /** A target written in canonical form resolves as its reading does. */
  lemma {:induction false} ParseRender(hour: nat, minute: Option<nat>, m: Meridiem, now: TimeOfDay)
    requires hour < U32Limit
    requires minute.Some? ==> minute.value < U32Limit
    ensures ParseClock(Render(hour, minute, m), now)
         == Resolve(RawTime(hour, if minute.Some? then minute.value else 0, m), now)
  {
    ReadRender(hour, minute, m);
  }

  /** The marker as written: two characters that lower-case to `am` or `pm`. */
  predicate SpelledAs(x: char, y: char, m: Meridiem) {
    m != Unmarked && LowerChar(x) == SuffixOf(m)[0] && LowerChar(y) == 'm'
  }

  /** A marked target loses exactly its last two characters. */
  lemma {:induction false} StripSpelled(body: string, x: char, y: char, m: Meridiem)
    requires SpelledAs(x, y, m)
    ensures StripMeridiem(body + [x, y]) == (body, m)
  {
    var s := body + [x, y];
    assert s[..|s| - 2] == body;
    assert MarkedWith(s, SuffixOf(m)[0]);
  }

  /** Whitespace never holds a colon. */
  lemma {:induction false} WhitespaceNoColon(pad: string)
    requires AllWhitespace(pad)
    ensures ':' !in pad
  {
    assert !IsWhitespace(':');
  }

  /**
   * The marker ignores case and the hour field is trimmed: `3 PM`, `3Pm`
   * and `3  am` read as hour 3 and minute 0.
   */
  lemma {:induction false} PaddedMarkerAnyCase(hour: nat, pad: string, x: char, y: char, m: Meridiem)
    requires hour < U32Limit && AllWhitespace(pad) && SpelledAs(x, y, m)
    ensures Reading(ToDecimal(hour) + pad + [x, y]) == Ok(RawTime(hour, 0, m))
  {
    var body := ToDecimal(hour) + pad;
    StripSpelled(body, x, y, m);
    assert Fields(body) == Ok((body, DefaultMinute)) by {
      FieldsOfPadded(hour, pad);
    }
    assert Number(body, InvalidHour) == Ok(hour) by {
      NumberOfPadded(hour, pad);
    }
    NumberOfDefaultMinute();
    ReadingSteps(body + [x, y], body, m, body, DefaultMinute, hour, 0);
  }

  lemma {:induction false} FieldsOfPadded(hour: nat, pad: string)
    requires AllWhitespace(pad)
    ensures Fields(ToDecimal(hour) + pad) == Ok((ToDecimal(hour) + pad, DefaultMinute))
  {
    DecimalNoColon(hour);
    WhitespaceNoColon(pad);
    FieldsOfOne(ToDecimal(hour) + pad);
  }

  lemma {:induction false} NumberOfPadded(hour: nat, pad: string)
    requires hour < U32Limit && AllWhitespace(pad)
    ensures Number(ToDecimal(hour) + pad, InvalidHour) == Ok(hour)
  {
    var h := ToDecimal(hour);
    assert Trim(h + pad) == h by {
      assert "" + h + pad == h + pad;
      TrimExact("", h, pad);
    }
    ParseToDecimal(hour, U32Limit);
  }

  /**
   * Both fields are trimmed, then parsed as `u32`: whitespace around the
   * number is ignored, and anything else in the field is its error.
   */
  lemma {:induction false} NumberPadded(a: string, p: string, b: string, e: ParseError)
    requires AllWhitespace(a) && AllWhitespace(b) && Trimmed(p)
    ensures Number(a + p + b, e)
         == if |Digits(p)| > 0 && AllDigits(Digits(p)) && Value(Digits(p)) < U32Limit
            then Ok(Value(Digits(p))) else Err(e)
  {
    TrimExact(a, p, b);
  }

  /** A marker with nothing but whitespace before it (`pm`, ` AM`) is "Invalid hour". */
  lemma {:induction false} MarkerWithoutHour(pad: string, x: char, y: char, m: Meridiem)
    requires AllWhitespace(pad) && SpelledAs(x, y, m)
    ensures Reading(pad + [x, y]) == Err(InvalidHour)
  {
    StripSpelled(pad, x, y, m);
    WhitespaceNoColon(pad);
    FieldsOfOne(pad);
    assert Trim(pad) == "" by {
      assert pad + "" + "" == pad;
      TrimExact(pad, "", "");
    }
    ParseRejectsEmpty(U32Limit);
    ReadingOfFields(pad + [x, y], pad, m);
  }

  /**
   * Normalisation worked through: at 14:00 an unmarked `9` is 21:00 while
   * `13` and `12pm` overflow to 25 and 24; before noon `12pm` is noon; at
   * 01:30 (5400 s) `1:00` becomes 13:00.
   */
  lemma {:induction false} ExamplesResolve()
    ensures Resolve(RawTime(9, 0, Unmarked), 50400) == Ok(ClockTime(21, 0))
    ensures Resolve(RawTime(9, 0, Am), 50400) == Ok(ClockTime(21, 0))
    ensures Resolve(RawTime(13, 0, Unmarked), 50400) == Err(InvalidTimeFormat)
    ensures Resolve(RawTime(12, 0, Pm), 50400) == Err(InvalidTimeFormat)
    ensures Resolve(RawTime(12, 0, Pm), 39600) == Ok(ClockTime(12, 0))
    ensures Resolve(RawTime(1, 0, Unmarked), 5400) == Ok(ClockTime(13, 0))
  {
  }

  /**
   * `3pm` at 14:00 waits one hour. `1pm` at 15:00 (54000 s): the written
   * rollover waits 26 hours and ends at 17:00 the next day; the intended one
   * waits 22 hours.
   */
  lemma {:induction false} ExamplesWait()
    ensures UntilAsWritten(ClockTime(15, 0), 50400) == 3600
    ensures UntilAsWritten(ClockTime(13, 0), 54000) == 93600
    ensures UntilNext(ClockTime(13, 0), 54000) == 79200
  {
  }
}

=== FILE: clock.dfy ===
/**
 * Wall-clock vocabulary shared by the parsers, the display and the run:
 * times of day in whole seconds, and the parse errors the program reports.
 */
module Clock {

  const SecondsPerMinute: nat := 60
  const SecondsPerHour: nat := 3600
  /** chrono's `Duration::hours(24)`. */
  const SecondsPerDay: nat := 86400

  /**
   * A local time of day, in seconds since midnight. This stands for
   * `Local::now().time()` with sub-second precision dropped.
   */
  type TimeOfDay = t: int | 0 <= t < SecondsPerDay

  function HourOf(t: TimeOfDay): nat {
    t / SecondsPerHour
  }

  function MinuteOf(t: TimeOfDay): nat {
    t % SecondsPerHour / SecondsPerMinute
  }

  /** The error strings the two parsers return, one constructor per message. */
  datatype ParseError =
    | InvalidMinutes         // "Invalid minutes"
    | InvalidSeconds         // "Invalid seconds"
    | InvalidHours           // "Invalid hours"
    | InvalidDurationFormat  // "Invalid duration format"
    | InvalidTimeFormat      // "Invalid time format"
    | InvalidHour            // "Invalid hour"
    | InvalidMinute          // "Invalid minute"
    | ConversionFailed       // "Failed to convert duration"
}

=== FILE: decimal.dfy ===
/**
 * Unsigned decimal integers: Rust's `str::parse::<u32>` / `parse::<u64>` and
 * the decimal rendering used by the display format.
 */
module Decimal {
  import opened Wrappers
  import opened Text

  /** One past the largest `u32`. */
  const U32Limit: nat := 0x1_0000_0000
  /** One past the largest `u64`. */
  const U64Limit: nat := 0x1_0000_0000_0000_0000

  predicate IsDigit(c: char) {
    '0' <= c <= '9'
  }

  predicate AllDigits(s: string) {
    forall i :: 0 <= i < |s| ==> IsDigit(s[i])
  }

  function DigitValue(c: char): nat
    requires IsDigit(c)
  {
    c as int - '0' as int
  }

  function DigitChar(n: nat): (c: char)
    requires n < 10
    ensures IsDigit(c) && DigitValue(c) == n
  {
    ('0' as int + n) as char
  }

  /** The number a string of decimal digits denotes, most significant digit first. */
  function Value(ds: string): nat
    requires AllDigits(ds)
  {
    if |ds| == 0 then 0 else Value(ds[..|ds| - 1]) * 10 + DigitValue(ds[|ds| - 1])
  }

  /** The digits after Rust's one optional leading `+`. */
  function Digits(s: string): string {
    if |s| > 0 && s[0] == '+' then s[1..] else s
  }

  /**
   * `str::parse` for an unsigned integer type whose values lie below `limit`:
   * one optional `+`, then at least one ASCII digit and nothing else; a value
   * that does not fit the type is an error.
   */
  function ParseUnsigned(s: string, limit: nat): (r: Option<nat>)
    ensures r.Some? ==> |s| > 0 && forall i :: 0 <= i < |s| ==> IsDigit(s[i]) || (i == 0 && s[i] == '+')
    ensures r.Some? <==> |Digits(s)| > 0 && AllDigits(Digits(s)) && Value(Digits(s)) < limit
    ensures r.Some? ==> r.value == Value(Digits(s))
  {
    var ds := Digits(s);
    if |ds| == 0 || !AllDigits(ds) then None
    else if Value(ds) >= limit then None
    else Some(Value(ds))
  }

  /** Canonical decimal rendering: no sign, no leading zero except for 0 itself. */
  function ToDecimal(n: nat): (r: string)
    ensures |r| >= 1 && AllDigits(r)
    ensures Value(r) == n
    ensures |r| == 1 || r[0] != '0'
  {
    if n < 10 then [DigitChar(n)]
    else
      var r := ToDecimal(n / 10) + [DigitChar(n % 10)];
      assert r[..|r| - 1] == ToDecimal(n / 10);
      r
  }

  /** `{:02}` / chrono's `%M`: exactly two digits, zero-padded. */
  function TwoDigits(n: nat): (r: string)
    requires n < 100
    ensures |r| == 2 && AllDigits(r) && Value(r) == n
  {
    var r := [DigitChar(n / 10), DigitChar(n % 10)];
    assert r[..1] == [DigitChar(n / 10)];
    assert r[..1][..0] == [];
    assert Value(r[..1]) == n / 10;
    r
  }

  /** Parsing the canonical rendering of `n` gives `n` back exactly when `n` fits the type. */
  lemma {:induction false} ParseToDecimal(n: nat, limit: nat)
    ensures ParseUnsigned(ToDecimal(n), limit) == (if n < limit then Some(n) else None)
  {
    assert Digits(ToDecimal(n)) == ToDecimal(n);
  }

  /** A leading `+` is accepted and ignored. */
  lemma {:induction false} ParsePlus(n: nat, limit: nat)
    ensures ParseUnsigned("+" + ToDecimal(n), limit) == (if n < limit then Some(n) else None)
  {
    assert Digits("+" + ToDecimal(n)) == ToDecimal(n);
  }

  /** Two zero-padded digits parse back to their value. */
  lemma {:induction false} ParseTwoDigits(n: nat, limit: nat)
    requires n < 100 && n < limit
    ensures ParseUnsigned(TwoDigits(n), limit) == Some(n)
  {
    assert Digits(TwoDigits(n)) == TwoDigits(n);
  }

  /** Fields are not trimmed: any whitespace, and any character other than digits and a leading `+`, is rejected. */
  lemma {:induction false} ParseRejectsForeign(s: string, limit: nat, i: nat)
    requires i < |s| && !IsDigit(s[i]) && !(i == 0 && s[i] == '+')
    ensures ParseUnsigned(s, limit) == None
  {
  }

  /** The empty string and a lone sign are not numbers. */
  lemma {:induction false} ParseRejectsEmpty(limit: nat)
    ensures ParseUnsigned("", limit) == None
    ensures ParseUnsigned("+", limit) == None
    ensures ParseUnsigned("-", limit) == None
  {
    assert Digits("+") == "";
  }

  /** Leading zeros are accepted: the minute `"00"` that a one-field target gets is zero. */
  lemma {:induction false} ParseDoubleZero(limit: nat)
    requires limit > 0
    ensures ParseUnsigned("00", limit) == Some(0)
  {
    assert Digits("00") == "00";
    assert "00"[..1] == "0";
    assert "0"[..0] == "";
    assert Value("00") == 0;
  }
}

=== FILE: display.dfy ===
/**
 * `format_target_time`: the line printed before the wait, `now + d` as
 * chrono's `"%l:%M%P"` with ` (tomorrow)` when the day changes, trimmed.
 */
module Display {
  import opened Wrappers
  import opened Text
  import opened Decimal
  import opened Clock
  import opened At

  /** The hour on a 12-hour dial: 12 for midnight and noon. */
  function Hour12(hour: nat): (h: nat)
    ensures 1 <= h <= 12
    ensures h % 12 == hour % 12
  {
    if hour % 12 == 0 then 12 else hour % 12
  }

  /** chrono's `%l`: the 12-hour hour, space-padded to two characters. */
  function SpacePadded(n: nat): (r: string)
    ensures |r| >= 2 || n >= 10
    ensures r == ToDecimal(n) || r == " " + ToDecimal(n)
  {
    if n < 10 then " " + ToDecimal(n) else ToDecimal(n)
  }

  /** chrono's `%P`. */
  function MeridiemOf(hour: nat): Meridiem {
    if hour < 12 then Am else Pm
  }

  const Tomorrow: string := " (tomorrow)"

  /** chrono's `"%l:%M%P"`, with `" (tomorrow)"` appended when the day differs. */
  function Padded(hour: nat, minute: nat, tomorrow: bool): (r: string)
    requires minute < 60
    ensures r == (if Hour12(hour) < 10 then " " else "") + Clock12(hour, minute, tomorrow)
  {
    var clock := SpacePadded(Hour12(hour)) + ":" + TwoDigits(minute) + SuffixOf(MeridiemOf(hour));
    if tomorrow then clock + Tomorrow else clock
  }

  /** The clock text without the day marker. */
  function ClockText(hour: nat, minute: nat): string
    requires minute < 60
  {
    ToDecimal(Hour12(hour)) + ":" + TwoDigits(minute) + SuffixOf(MeridiemOf(hour))
  }

  /**
   * What the printed line should read: the unpadded 12-hour hour, a colon,
   * two minute digits, `am` or `pm`, then ` (tomorrow)` if the day changed.
   */
  function Clock12(hour: nat, minute: nat, tomorrow: bool): string
    requires minute < 60
  {
    ClockText(hour, minute) + (if tomorrow then Tomorrow else "")
  }

  /** The 12-hour text starts with a digit and ends with `m` or `)`: nothing for `trim` to remove. */
  lemma {:induction false} Clock12Trimmed(hour: nat, minute: nat, tomorrow: bool)
    requires minute < 60
    ensures Trimmed(Clock12(hour, minute, tomorrow))
  {
    var h := ToDecimal(Hour12(hour));
    var suffix := SuffixOf(MeridiemOf(hour));
    var tail := if tomorrow then Tomorrow else "";
    var rest := ":" + TwoDigits(minute) + suffix + tail;
    assert Clock12(hour, minute, tomorrow) == h + rest;
    assert rest[|rest| - 1] == (if tomorrow then ')' else 'm') by {
      assert suffix[1] == 'm';
      if tomorrow {
        assert rest[|rest| - 1] == Tomorrow[|Tomorrow| - 1];
      } else {
        assert rest[|rest| - 1] == suffix[1];
      }
    }
    assert IsDigit(h[0]);
    TrimmedConcat(h, rest);
  }

  /** Trimming the chrono text only removes the padding of a one-digit hour. */
  lemma {:induction false} PaddedTrim(hour: nat, minute: nat, tomorrow: bool)
    requires minute < 60
    ensures Trim(Padded(hour, minute, tomorrow)) == Clock12(hour, minute, tomorrow)
  {
    var lead := if Hour12(hour) < 10 then " " else "";
    assert AllWhitespace(lead);
    Clock12Trimmed(hour, minute, tomorrow);
    assert Padded(hour, minute, tomorrow) == lead + Clock12(hour, minute, tomorrow) + "";
    TrimExact(lead, Clock12(hour, minute, tomorrow), "");
  }

  /**
   * `format_target_time`, with the clock read once: the target lies on the
   * day of `now` exactly when `now + d` is before the next midnight.
   */
  function FormatTargetTime(now: TimeOfDay, d: nat): (r: string)
    ensures Trimmed(r)
  {
    var tod: TimeOfDay := (now + d) % SecondsPerDay;
    var sameDay := (now + d) / SecondsPerDay == 0;
    Trim(Padded(HourOf(tod), MinuteOf(tod), !sameDay))
  }

  /**
   * The printed line is the unpadded 12-hour clock time of `now + d`, with
   * ` (tomorrow)` exactly when `now + d` is past midnight.
   */
  lemma {:induction false} FormatShape(now: TimeOfDay, d: nat)
    ensures
      var tod: TimeOfDay := (now + d) % SecondsPerDay;
      FormatTargetTime(now, d) == Clock12(HourOf(tod), MinuteOf(tod), now + d >= SecondsPerDay)
  {
    var tod: TimeOfDay := (now + d) % SecondsPerDay;
    PaddedTrim(HourOf(tod), MinuteOf(tod), (now + d) / SecondsPerDay != 0);
  }

  /** What a reader of the line learns: a 24-hour clock time and whether it is tomorrow. */
  datatype ShownTime = ShownTime(hour: nat, minute: nat, tomorrow: bool)

  /** Separates a trailing ` (tomorrow)` from the clock text. */
  function CutTomorrow(line: string): (string, bool) {
    if EndsWith(line, Tomorrow) then (line[..|line| - |Tomorrow|], true) else (line, false)
  }

  /** Reads `h:MMam` / `h:MMpm` as a 24-hour hour and a minute. */
  function ReadClockText(text: string): Option<(nat, nat)> {
    var (body, m) := StripMeridiem(text);
    var parts := Split(body, ':');
    if m == Unmarked || |parts| != 2 then None
    else
      match (ParseUnsigned(parts[0], 13), ParseUnsigned(parts[1], 60))
      case (Some(h), Some(minute)) =>
        if h == 0 then None
        else Some((if m == Am then h % 12 else h % 12 + 12, minute))
      case _ => None
  }

  /** Reads a printed line back, undoing the 12-hour rendering. */
  function ReadDisplay(line: string): Option<ShownTime> {
    var (text, tomorrow) := CutTomorrow(line);
    match ReadClockText(text)
    case Some((hour, minute)) => Some(ShownTime(hour, minute, tomorrow))
    case None => None
  }

  lemma {:induction false} CutTomorrowOf(hour: nat, minute: nat, tomorrow: bool)
    requires minute < 60
    ensures CutTomorrow(Clock12(hour, minute, tomorrow)) == (ClockText(hour, minute), tomorrow)
  {
    var clock := ClockText(hour, minute);
    var line := Clock12(hour, minute, tomorrow);
    assert line == clock + (if tomorrow then Tomorrow else "");
    if tomorrow {
      assert line[..|line| - |Tomorrow|] == clock;
    } else {
      assert line == clock;
      var suffix := SuffixOf(MeridiemOf(hour));
      assert suffix[1] == 'm';
      assert line[|line| - 1] == suffix[1];
      assert Tomorrow[|Tomorrow| - 1] == ')';
      assert !EndsWith(line, Tomorrow) by {
        assert |line| >= |Tomorrow| ==> line[|line| - |Tomorrow|..][|Tomorrow| - 1] == line[|line| - 1];
      }
    }
  }

  /** `ReadClockText` assembled from its steps. */
  lemma {:induction false} ReadClockTextSteps(text: string, body: string, m: Meridiem, a: string, b: string, h: nat, minute: nat)
    requires StripMeridiem(text) == (body, m) && m != Unmarked
    requires Split(body, ':') == [a, b]
    requires ParseUnsigned(a, 13) == Some(h) && h != 0
    requires ParseUnsigned(b, 60) == Some(minute)
    ensures ReadClockText(text) == Some((if m == Am then h % 12 else h % 12 + 12, minute))
  {
  }

  /** The 12-hour hour and its marker give back the 24-hour hour. */
  lemma {:induction false} Hour12Back(hour: nat)
    requires hour < 24
    ensures (if MeridiemOf(hour) == Am then Hour12(hour) % 12 else Hour12(hour) % 12 + 12) == hour
  {
  }

  lemma {:induction false} StripClockText(hour: nat, minute: nat)
    requires minute < 60
    ensures StripMeridiem(ClockText(hour, minute))
         == (ToDecimal(Hour12(hour)) + [':'] + TwoDigits(minute), MeridiemOf(hour))
  {
    var body := ToDecimal(Hour12(hour)) + [':'] + TwoDigits(minute);
    assert ClockText(hour, minute) == body + SuffixOf(MeridiemOf(hour));
    assert body[|body| - 1] == TwoDigits(minute)[1];
    MarkerRoundTrip(body, MeridiemOf(hour));
  }

  lemma {:induction false} ReadClockTextOf(hour: nat, minute: nat)
    requires hour < 24 && minute < 60
    ensures ReadClockText(ClockText(hour, minute)) == Some((hour, minute))
  {
    var h := ToDecimal(Hour12(hour));
    var mm := TwoDigits(minute);
    var body := h + [':'] + mm;
    var m := MeridiemOf(hour);
    assert StripMeridiem(ClockText(hour, minute)) == (body, m) by {
      StripClockText(hour, minute);
    }
    assert Split(body, ':') == [h, mm] by {
      SplitPrefix(h, mm, ':');
      SplitNoSep(mm, ':');
    }
    assert ParseUnsigned(h, 13) == Some(Hour12(hour)) by {
      ParseToDecimal(Hour12(hour), 13);
    }
    assert ParseUnsigned(mm, 60) == Some(minute) by {
      ParseTwoDigits(minute, 60);
    }
    ReadClockTextSteps(ClockText(hour, minute), body, m, h, mm, Hour12(hour), minute);
    Hour12Back(hour);
  }

  /** Round trip: the 12-hour line reads back as the 24-hour time it was made from. */
  lemma {:induction false} ReadClock12(hour: nat, minute: nat, tomorrow: bool)
    requires hour < 24 && minute < 60
    ensures ReadDisplay(Clock12(hour, minute, tomorrow)) == Some(ShownTime(hour, minute, tomorrow))
  {
    CutTomorrowOf(hour, minute, tomorrow);
    ReadClockTextOf(hour, minute);
  }

  /** The printed line reads back as the clock time of `now + d`, and says tomorrow exactly when it is past midnight. */
  lemma {:induction false} FormatRoundTrip(now: TimeOfDay, d: nat)
    ensures
      var tod: TimeOfDay := (now + d) % SecondsPerDay;
      ReadDisplay(FormatTargetTime(now, d)) == Some(ShownTime(HourOf(tod), MinuteOf(tod), now + d >= SecondsPerDay))
  {
    var tod: TimeOfDay := (now + d) % SecondsPerDay;
    FormatShape(now, d);
    ReadClock12(HourOf(tod), MinuteOf(tod), now + d >= SecondsPerDay);
  }

  /** A normalised clock time is recovered from its seconds since midnight. */
  lemma {:induction false} ClockOfSeconds(c: ClockTime)
    requires c.Valid()
    ensures c.Seconds() < SecondsPerDay
    ensures HourOf(c.Seconds()) == c.hour && MinuteOf(c.Seconds()) == c.minute
  {
  }

  /**
   * With the intended rollover the printed line shows exactly the requested
   * clock time, and says tomorrow exactly when that time is not later today.
   */
  lemma {:induction false} IntendedShowsClock(c: ClockTime, now: TimeOfDay)
    requires c.Valid()
    ensures ReadDisplay(FormatTargetTime(now, UntilNext(c, now)))
         == Some(ShownTime(c.hour, c.minute, c.Seconds() <= now))
  {
    var d := UntilNext(c, now);
    var t := c.Seconds();
    ClockOfSeconds(c);
    assert now + d == (if t > now then t else t + SecondsPerDay);
    assert (now + d) % SecondsPerDay == t;
    FormatRoundTrip(now, d);
  }

  /**
   * As written, the line shows the requested time whenever it is later
   * today; otherwise it always announces a time tomorrow.
   */
  lemma {:induction false} AsWrittenShowsClock(c: ClockTime, now: TimeOfDay)
    requires c.Valid()
    ensures c.Seconds() > now ==>
              ReadDisplay(FormatTargetTime(now, UntilAsWritten(c, now))) == Some(ShownTime(c.hour, c.minute, false))
    ensures c.Seconds() <= now ==>
              ReadDisplay(FormatTargetTime(now, UntilAsWritten(c, now))).Some?
              && ReadDisplay(FormatTargetTime(now, UntilAsWritten(c, now))).value.tomorrow
  {
    var d := UntilAsWritten(c, now);
    ClockOfSeconds(c);
    if c.Seconds() > now {
      assert (now + d) % SecondsPerDay == c.Seconds();
    }
    FormatRoundTrip(now, d);
  }

  /** The same for a target string: what `nag at` would print with the intended rollover. */
  lemma {:induction false} IntendedShowsRequestedTime(s: string, now: TimeOfDay)
    requires DurationAtIntended(s, now).Ok?
    ensures
      var c := ParseClock(s, now).value;
      ReadDisplay(FormatTargetTime(now, DurationAtIntended(s, now).value))
        == Some(ShownTime(c.hour, c.minute, c.Seconds() <= now))
  {
    IntendedShowsClock(ParseClock(s, now).value, now);
  }
}

=== FILE: nag.dfy ===
/**
 * The run of `nag <when> <target> <message> [--estimate]`: choose the parser,
 * print the target time, and unless estimating, wait and then either speak
 * the message or skip it.
 *
 * The clock is an input. `Clocks.now` is the time of day read before parsing
 * and formatting; `wake` and `wakeAgain` are the two reads after the wait,
 * counted in seconds from the midnight that began the day of `now`. Speaking
 * is an outcome, not an effect.
 */
module Nag {
  import opened Wrappers
  import opened Text
  import opened Decimal
  import opened Clock
  import opened After
  import opened At
  import opened Display

  /** `"in"` selects the relative parser, `"at"` the clock-time one. */
  datatype Mode = Relative | Absolute

  /** What the command line hands over; the message words are already joined. */
  datatype Invocation = Invocation(when: string, target: string, message: string, estimate: bool)

  datatype Clocks = Clocks(now: TimeOfDay, wake: int, wakeAgain: int)

  /** How a run ends. */
  datatype Outcome =
    | UnsupportedMode                    // message on stderr, nothing printed
    | Aborted(error: ParseError)         // `expect` panics before printing
    | Estimated(line: string)            // printed, no wait
    | Spoke(line: string, message: string)
    | Skipped(line: string)              // waited, then judged stale

  /** The lines written to standard output. */
  function Printed(o: Outcome): seq<string> {
    match o
    case Estimated(line) => [line]
    case Spoke(line, _) => [line]
    case Skipped(line) => [line]
    case _ => []
  }

  /** The text handed to the speech command, if any. */
  function Spoken(o: Outcome): Option<string> {
    if o.Spoke? then Some(o.message) else None
  }

  /** `src/main.rs` line 152: the `when` argument, trimmed and lower-cased. */
  function SelectMode(when: string): (r: Option<Mode>)
    ensures r == Some(Relative) <==> Lower(Trim(when)) == "in"
    ensures r == Some(Absolute) <==> Lower(Trim(when)) == "at"
    ensures r == None <==> Lower(Trim(when)) !in {"in", "at"}
  {
    var w := Lower(Trim(when));
    if w == "in" then Some(Relative) else if w == "at" then Some(Absolute) else None
  }

  /** `src/main.rs` lines 155-162: the wait the chosen parser computes. */
  function Duration(mode: Mode, target: string, now: TimeOfDay): (r: Result<nat, ParseError>)
    ensures mode == Relative && r.Ok? ==> r.value < U64Limit
    ensures mode == Absolute ==> (r.Ok? <==> ParseClock(target, now).Ok?)
    ensures mode == Absolute && r.Ok? ==> 0 < r.value < 2 * SecondsPerDay
  {
    match mode
    case Relative => DurationAfter(target)
    case Absolute => DurationAt(target, now)
  }

  /** Which staleness test decides whether to speak after the wait. */
  datatype Guard = AsWritten | Intended

  /**
   * `src/main.rs` lines 178-183 as written: the target is taken as the second read plus
   * the duration, so the test compares the duration, not the lateness.
   */
  predicate SpeaksAsWritten(d: nat, wake: int, wakeAgain: int): (r: bool)
    ensures wake == wakeAgain ==> (r <==> d < 30)
    ensures wake <= wakeAgain && r ==> d < 30
  {
    (wakeAgain + d) - wake < 30
  }

  /**
   * The evidently intended test: speak when the wake-up is within 30
   * seconds of the instant the wait was aimed at, `now + d`.
   */
  predicate SpeaksIntended(now: TimeOfDay, d: nat, wake: int): (r: bool)
    ensures wake == now + d ==> r
    ensures wake >= now + d + 30 || wake <= now + d - 30 ==> !r
    ensures now + d - 30 < wake < now + d + 30 ==> r
  {
    -30 < wake - (now + d) < 30
  }

  predicate Speaks(guard: Guard, d: nat, clocks: Clocks) {
    match guard
    case AsWritten => SpeaksAsWritten(d, clocks.wake, clocks.wakeAgain)
    case Intended => SpeaksIntended(clocks.now, d, clocks.wake)
  }

  /**
   * `src/main.rs` lines 164-185, once a wait has been parsed: print the target time, stop
   * if estimating, otherwise wait and decide.
   */
  function Proceed(parsed: Result<nat, ParseError>, inv: Invocation, clocks: Clocks, guard: Guard): (o: Outcome)
    ensures parsed.Err? ==> o == Aborted(parsed.error)
    ensures parsed.Ok? ==> (o.Estimated? <==> inv.estimate)
    ensures parsed.Ok? ==> o.Estimated? || o.Spoke? || o.Skipped?
    ensures o.Spoke? <==> parsed.Ok? && !inv.estimate && Speaks(guard, parsed.value, clocks)
    ensures Spoken(o).Some? ==> Spoken(o).value == inv.message
  {
    match parsed
    case Err(e) => Aborted(e)
    case Ok(d) =>
      var line := FormatTargetTime(clocks.now, d);
      if inv.estimate then Estimated(line)
      else if Speaks(guard, d, clocks) then Spoke(line, inv.message)
      else Skipped(line)
  }

  /** `src/main.rs` lines 152-185: the run, with the clock read as `clocks`. */
  function Run(inv: Invocation, clocks: Clocks): (o: Outcome)
    ensures o == UnsupportedMode <==> SelectMode(inv.when).None?
    ensures SelectMode(inv.when).None? ==> Printed(o) == [] && Spoken(o).None?
  {
    match SelectMode(inv.when)
    case None => UnsupportedMode
    case Some(mode) => Proceed(Duration(mode, inv.target, clocks.now), inv, clocks, AsWritten)
  }

  /** The wait with the intended rollover of `nag at`. */
  function DurationIntended(mode: Mode, target: string, now: TimeOfDay): Result<nat, ParseError> {
    match mode
    case Relative => DurationAfter(target)
    case Absolute => DurationAtIntended(target, now)
  }

  /** The run with both corrections: the intended rollover and the intended staleness test. */
  function RunIntended(inv: Invocation, clocks: Clocks): (o: Outcome)
    ensures o == UnsupportedMode <==> SelectMode(inv.when).None?
    ensures SelectMode(inv.when).None? ==> Printed(o) == [] && Spoken(o).None?
  {
    match SelectMode(inv.when)
    case None => UnsupportedMode
    case Some(mode) => Proceed(DurationIntended(mode, inv.target, clocks.now), inv, clocks, Intended)
  }

  /** Exactly one line is printed once a wait is parsed, none before: the target time. */
  lemma {:induction false} ProceedPrints(parsed: Result<nat, ParseError>, inv: Invocation, clocks: Clocks, guard: Guard)
    ensures Printed(Proceed(parsed, inv, clocks, guard))
         == if parsed.Ok? then [FormatTargetTime(clocks.now, parsed.value)] else []
  {
  }

  /** The mode word is matched ignoring surrounding whitespace and ASCII case. */
  lemma {:induction false} ModeIgnoresPadding(a: string, w: string, b: string)
    requires AllWhitespace(a) && AllWhitespace(b) && Trimmed(w)
    ensures SelectMode(a + w + b) == SelectMode(w)
  {
    TrimExact(a, w, b);
    TrimIdentity(w);
  }

  /** A parse error ends the run before anything is printed, waited for or spoken. */
  lemma {:induction false} ParseErrorAborts(inv: Invocation, clocks: Clocks)
    requires SelectMode(inv.when).Some?
    requires Duration(SelectMode(inv.when).value, inv.target, clocks.now).Err?
    ensures Run(inv, clocks) == Aborted(Duration(SelectMode(inv.when).value, inv.target, clocks.now).error)
    ensures Printed(Run(inv, clocks)) == [] && Spoken(Run(inv, clocks)).None?
  {
  }

  /** With `--estimate` the run prints the target time and stops: no wait, no speech. */
  lemma {:induction false} EstimateOnly(inv: Invocation, clocks: Clocks)
    requires inv.estimate && SelectMode(inv.when).Some?
    requires Duration(SelectMode(inv.when).value, inv.target, clocks.now).Ok?
    ensures Run(inv, clocks)
         == Estimated(FormatTargetTime(clocks.now, Duration(SelectMode(inv.when).value, inv.target, clocks.now).value))
  {
  }

  /**
   * A punctual wake-up whose two reads agree: the intended guard speaks,
   * the written one only when the wait was under 30 seconds.
   */
  lemma {:induction false} GuardsOnPunctualWake(now: TimeOfDay, d: nat)
    ensures SpeaksIntended(now, d, now + d)
    ensures SpeaksAsWritten(d, now + d, now + d) <==> d < 30
  {
  }

  /**
   * As written, a wait of 30 seconds or more is never spoken, however
   * punctually the process wakes (the second read is never earlier than the first).
   */
  lemma {:induction false} LongWaitNeverSpoken(inv: Invocation, clocks: Clocks)
    requires clocks.wake <= clocks.wakeAgain
    requires SelectMode(inv.when).Some?
    requires Duration(SelectMode(inv.when).value, inv.target, clocks.now).Ok?
    requires Duration(SelectMode(inv.when).value, inv.target, clocks.now).value >= 30
    ensures !Run(inv, clocks).Spoke? && Spoken(Run(inv, clocks)).None?
  {
  }

  /**
   * With the intended guard a wake-up on time or up to 29 seconds late
   * speaks, and one 30 seconds or more late never does.
   */
  lemma {:induction false} IntendedGuard(inv: Invocation, clocks: Clocks)
    requires !inv.estimate && SelectMode(inv.when).Some?
    requires DurationIntended(SelectMode(inv.when).value, inv.target, clocks.now).Ok?
    ensures
      var d := DurationIntended(SelectMode(inv.when).value, inv.target, clocks.now).value;
      && (clocks.wake == clocks.now + d ==> RunIntended(inv, clocks).Spoke?)
      && (clocks.now + d <= clocks.wake < clocks.now + d + 30 ==> RunIntended(inv, clocks).Spoke?)
      && (clocks.wake >= clocks.now + d + 30 ==> RunIntended(inv, clocks).Skipped?)
  {
    var parsed := DurationIntended(SelectMode(inv.when).value, inv.target, clocks.now);
    assert RunIntended(inv, clocks) == Proceed(parsed, inv, clocks, Intended);
  }

  /** `nag in 45 … --estimate` prints the time 45 minutes on and stops. */
  lemma {:induction false} ScenarioEstimate(when: string, clocks: Clocks, message: string)
    requires SelectMode(when) == Some(Relative)
    ensures Run(Invocation(when, "45", message, true), clocks) == Estimated(FormatTargetTime(clocks.now, 2700))
  {
    ExampleMinutes();
  }

  /**
   * `nag at <h>` with an unmarked `u32` hour from 24 up is aborted with the
   * date-time parse error, before printing. (From 2^32 up the hour field
   * itself fails, with "Invalid hour".)
   */
  lemma {:induction false} ScenarioHourOutOfRange(when: string, h: nat, clocks: Clocks, message: string, estimate: bool)
    requires SelectMode(when) == Some(Absolute)
    requires 24 <= h < U32Limit
    ensures Run(Invocation(when, Render(h, None, Unmarked), message, estimate), clocks) == Aborted(InvalidTimeFormat)
  {
    ParseRender(h, None, Unmarked, clocks.now);
    HourOutOfRangeUnlessPm(RawTime(h, 0, Unmarked), clocks.now);
  }
}

=== FILE: text.dfy ===
/**
 * The string primitives the parsers rely on: Rust's `str::trim`, ASCII
 * lower-casing, `ends_with`, and `str::split` on a single character.
 */
module Text {

  /** Rust's `char::is_whitespace`: the Unicode White_Space property. */
  predicate IsWhitespace(c: char) {
    || ('\t' <= c <= '\r')
    || c == ' '
    || c == '\U{85}'
    || c == '\U{A0}'
    || c == '\U{1680}'
    || ('\U{2000}' <= c <= '\U{200A}')
    || c == '\U{2028}'
    || c == '\U{2029}'
    || c == '\U{202F}'
    || c == '\U{205F}'
    || c == '\U{3000}'
  }

  predicate AllWhitespace(s: string) {
    forall i :: 0 <= i < |s| ==> IsWhitespace(s[i])
  }

  /** No whitespace at either end: what `trim` leaves behind. */
  predicate Trimmed(s: string) {
    |s| == 0 || (!IsWhitespace(s[0]) && !IsWhitespace(s[|s| - 1]))
  }

  /** `str::trim_start`: drops the leading whitespace and nothing else. */
  function TrimStart(s: string): (r: string)
    ensures |r| <= |s| && r == s[|s| - |r|..]
    ensures AllWhitespace(s[..|s| - |r|])
    ensures |r| == 0 || !IsWhitespace(r[0])
  {
    if |s| > 0 && IsWhitespace(s[0]) then TrimStart(s[1..]) else s
  }

  /** `str::trim_end`: drops the trailing whitespace and nothing else. */
  function TrimEnd(s: string): (r: string)
    ensures |r| <= |s| && r == s[..|r|]
    ensures AllWhitespace(s[|r|..])
    ensures |r| == 0 || !IsWhitespace(r[|r| - 1])
  {
    if |s| > 0 && IsWhitespace(s[|s| - 1]) then TrimEnd(s[..|s| - 1]) else s
  }

  /** `str::trim`. */
  function Trim(s: string): (r: string)
    ensures Trimmed(r)
  {
    TrimEnd(TrimStart(s))
  }

  /** `Trim` keeps a contiguous part of its input and drops only whitespace around it. */
  lemma {:induction false} TrimKeepsMiddle(s: string)
    ensures
      var r := Trim(s);
      exists k :: 0 <= k <= |s| - |r| && r == s[k..k + |r|] && AllWhitespace(s[..k]) && AllWhitespace(s[k + |r|..])
  {
    var t := TrimStart(s);
    var r := TrimEnd(t);
    var k := |s| - |t|;
    assert t == s[k..];
    assert r == s[k..k + |r|];
    assert s[k + |r|..] == t[|r|..];
  }

  /** Trimming removes exactly the surrounding whitespace: `Trim(a + r + b) == r`. */
  lemma {:induction false} TrimExact(a: string, r: string, b: string)
    requires AllWhitespace(a) && AllWhitespace(b) && Trimmed(r)
    ensures Trim(a + r + b) == r
  {
    if |r| == 0 {
      assert a + r + b == (a + b) + "";
      assert AllWhitespace(a + b) by {
        forall i | 0 <= i < |a + b| ensures IsWhitespace((a + b)[i]) {
          if i >= |a| { assert (a + b)[i] == b[i - |a|]; }
        }
      }
      TrimStartExact(a + b, "");
    } else {
      assert a + r + b == a + (r + b);
      TrimStartExact(a, r + b);
      TrimEndExact(r, b);
    }
  }

  lemma {:induction false} TrimStartExact(a: string, t: string)
    requires AllWhitespace(a)
    requires |t| == 0 || !IsWhitespace(t[0])
    ensures TrimStart(a + t) == t
  {
    if |a| > 0 {
      assert (a + t)[1..] == a[1..] + t;
      TrimStartExact(a[1..], t);
    }
  }

  lemma {:induction false} TrimEndExact(t: string, b: string)
    requires AllWhitespace(b)
    requires |t| == 0 || !IsWhitespace(t[|t| - 1])
    ensures TrimEnd(t + b) == t
  {
    if |b| > 0 {
      assert (t + b)[..|t + b| - 1] == t + b[..|b| - 1];
      TrimEndExact(t, b[..|b| - 1]);
    } else {
      assert t + b == t;
    }
  }

  lemma {:induction false} TrimmedConcat(a: string, b: string)
    requires |a| > 0 && !IsWhitespace(a[0])
    requires |b| > 0 && !IsWhitespace(b[|b| - 1])
    ensures Trimmed(a + b)
  {
    assert (a + b)[0] == a[0];
    assert (a + b)[|a + b| - 1] == b[|b| - 1];
  }

  /** A string already free of surrounding whitespace is left unchanged by `Trim`. */
  lemma {:induction false} TrimIdentity(s: string)
    requires Trimmed(s)
    ensures Trim(s) == s
  {
    TrimExact("", s, "");
    assert "" + s + "" == s;
  }

  /** ASCII lower-casing of one character; everything else is left alone. */
  function LowerChar(c: char): char {
    if 'A' <= c <= 'Z' then (c as int - 'A' as int + 'a' as int) as char else c
  }

  /** Character-wise lower-casing (the ASCII part of `str::to_lowercase`). */
  function Lower(s: string): (r: string)
    ensures |r| == |s|
    ensures forall i :: 0 <= i < |s| ==> r[i] == LowerChar(s[i])
  {
    if |s| == 0 then "" else [LowerChar(s[0])] + Lower(s[1..])
  }

  predicate EndsWith(s: string, suffix: string) {
    |suffix| <= |s| && s[|s| - |suffix|..] == suffix
  }

  /** `Lower(s)` ends in the two characters `x`, `y` exactly when the last two of `s` lower to them. */
  lemma {:induction false} LowerEndsWith(s: string, x: char, y: char)
    ensures EndsWith(Lower(s), [x, y]) <==> |s| >= 2 && LowerChar(s[|s| - 2]) == x && LowerChar(s[|s| - 1]) == y
  {
    if |s| >= 2 {
      assert Lower(s)[|s| - 2..] == [LowerChar(s[|s| - 2]), LowerChar(s[|s| - 1])];
    }
  }

  /** Number of occurrences of `c` in `s`. */
  function Count(s: string, c: char): nat {
    if |s| == 0 then 0 else (if s[0] == c then 1 else 0) + Count(s[1..], c)
  }

  /** The inverse of `Split`: the pieces glued back together with `sep` between them. */
  function Join(parts: seq<string>, sep: char): string
    requires |parts| >= 1
  {
    if |parts| == 1 then parts[0] else parts[0] + [sep] + Join(parts[1..], sep)
  }

  /**
   * `str::split` on one character: every piece between separators, including
   * empty ones, so a string with `n` separators always yields `n + 1` pieces.
   */
  function Split(s: string, sep: char): (parts: seq<string>)
    ensures |parts| == Count(s, sep) + 1
    ensures forall i :: 0 <= i < |parts| ==> sep !in parts[i]
    ensures Join(parts, sep) == s
  {
    if |s| == 0 then [""]
    else
      var rest := Split(s[1..], sep);
      if s[0] == sep then
        assert [sep] + s[1..] == s;
        [""] + rest
      else
        var parts := [[s[0]] + rest[0]] + rest[1..];
        assert parts[1..] == rest[1..];
        assert Join(parts, sep) == [s[0]] + Join(rest, sep);
        assert [s[0]] + s[1..] == s;
        parts
  }

  /** Splitting what `Join` produced gives the pieces back, when no piece holds the separator. */
  lemma {:induction false} SplitJoin(parts: seq<string>, sep: char)
    requires |parts| >= 1
    requires forall i :: 0 <= i < |parts| ==> sep !in parts[i]
    ensures Split(Join(parts, sep), sep) == parts
  {
    if |parts| == 1 {
      SplitNoSep(parts[0], sep);
    } else {
      SplitJoin(parts[1..], sep);
      SplitPrefix(parts[0], Join(parts[1..], sep), sep);
      assert [parts[0]] + parts[1..] == parts;
    }
  }

  /** A string without the separator is a single piece. */
  lemma {:induction false} SplitNoSep(s: string, sep: char)
    requires sep !in s
    ensures Split(s, sep) == [s]
  {
    if |s| > 0 {
      assert sep !in s[1..] by {
        forall i | 0 <= i < |s[1..]| ensures s[1..][i] != sep {
          assert s[1..][i] == s[i + 1];
        }
      }
      SplitNoSep(s[1..], sep);
      assert [s[0]] + s[1..] == s;
    }
  }

  /** A separator-free prefix followed by a separator becomes the first piece. */
  lemma {:induction false} SplitPrefix(a: string, b: string, sep: char)
    requires sep !in a
    ensures Split(a + [sep] + b, sep) == [a] + Split(b, sep)
  {
    if |a| == 0 {
      assert a + [sep] + b == [sep] + b;
      assert ([sep] + b)[1..] == b;
    } else {
      assert (a + [sep] + b)[1..] == a[1..] + [sep] + b;
      assert sep !in a[1..] by {
        forall i | 0 <= i < |a[1..]| ensures a[1..][i] != sep {
          assert a[1..][i] == a[i + 1];
        }
      }
      SplitPrefix(a[1..], b, sep);
      assert [a[0]] + a[1..] == a;
    }
  }
}

=== FILE: wrappers.dfy ===
/** Failure-compatible result types shared by the parsers. */
module Wrappers {

  /** An optional value. */
  datatype Option<+T> = None | Some(value: T)

  /** The value of a computation that may fail with an error `E`; usable with `:-`. */
  datatype Result<+T, +E> = Ok(value: T) | Err(error: E) {

    predicate IsFailure() {
      Err?
    }

    function PropagateFailure<U>(): Result<U, E>
      requires Err?
    {
      Err(error)
    }

    function Extract(): T
      requires Ok?
    {
      value
    }
  }
}
